=== FILE: README.md ===
# cherrytree commit/PR correlation core, in Dafny

cherrytree works out which pull requests have landed on a branch, which commit
brought each one in, and whether a release branch already exists. This project
models the pure logic behind that, all of it in `cherrytree/github_utils.py`:

- reading a PR number from a commit summary (`PR_REGEX`, `commit_pr_number`);
- building the ordered PR → commit map from a newest-first history
  (`get_commit_pr_map`);
- deduplicating a list of issues by number (`deduplicate_prs`);
- the fixed-width column formatter (`truncate_str`);
- parsing the first line of `git status`, the error rule of `os_system`, and
  the branch probe `check_if_branch_exists` as a sequence of commands issued to
  an abstract shell;
- the upward directory walk of `get_git_repo` / `_traverse_dirs`.

Modules, one per component: `Wrappers` (Option/Result), `Text` (the Python
`str` behaviour the code relies on: `\d+`, `int()`, `str.strip()`, `:<width`
padding), `PrParser`, `OrderedDict`, `CommitPrMap`, `Dedup`, `Truncate`,
`GitProbe` and `RepoLocator`.

Some design decisions:

- **The regex.** The PR pattern is modelled the way Python's `re.search` runs
  it. The first alternative can only match at position 0, because of `^`. At
  each position it is tried before the second alternative. `$` matches at the
  end of the string or just before a final newline. The second alternative can
  match at one position at most (`SquashPositionUnique`), so the search result
  is well defined.
- **Map values.** `get_commit_pr_map` assigns `d[pr_number] = commit` into
  an `OrderedDict` while walking the newest-first list from its oldest end.
  A key therefore keeps the position of its oldest commit, but its value is
  overwritten each time, so the newest commit naming the PR is the one
  stored. `CommitPrMapValues` and `CommitPrMapOrder` state this.
- **dirname.** `os.path.dirname` is modelled as POSIX `posixpath.dirname`. It
  takes everything up to the last `/` and strips trailing slashes, unless only
  slashes remain. Its contract proves that it returns the path itself or a
  strictly shorter prefix of it, which is why the walk terminates.
- **Column widths.** `truncate_str` is modelled for every integer width. A
  width below 3 makes `value[:width - 3]` a negative slice bound, which counts
  from the end of the string, and the text can then overflow the column. The
  format spec parser reads the width's digits first: when they spell a number
  above `sys.maxsize` (2^63 − 1 on a 64-bit build), whatever the sign,
  `f"{s:<{width}}"` raises `ValueError` for too many digits. Otherwise a
  negative width, from −`sys.maxsize` to −1, raises `ValueError` because the
  `-` is read as a sign.
- **Effects as parameters.** The shell, the working directory and the
  "is this a git repository" test are parameters. The shell is a function from
  (commands already issued, next command) to what that command reports, so its
  answers may depend on earlier checkouts.

## Model

| member | source | states |
|---|---|---|
| Text.DecimalValue | cherrytree/github_utils.py:87 | `int()` of a digit string is below 10^len, and at least 10^(len−1) when the first digit is not `0` |
| Text.DecimalRoundTrip | cherrytree/github_utils.py:87 | `int()` of the decimal numeral of any n gives back n |
| Text.LeadingDigitsOfNumeral | cherrytree/github_utils.py:19 | greedy `\d+` consumes exactly a numeral when a non-digit (or the end) follows it |
| Text.TrimLeft | cherrytree/github_utils.py:103-104 | `lstrip()` leaves a suffix that starts with a non-space, and everything it drops is whitespace |
| Text.TrimRight | cherrytree/github_utils.py:103-104 | `rstrip()` leaves a prefix that ends with a non-space, and everything it drops is whitespace |
| Text.Strip | cherrytree/github_utils.py:103-104 | `strip()` returns the infix of s that follows its leading whitespace and is followed only by whitespace, and that infix starts and ends with a non-space |
| Text.StripOfPrefix | cherrytree/github_utils.py:103-104 | stripping a prefix of a string gives a prefix of the stripped string |
| Text.LeftJustify | cherrytree/github_utils.py:106 | `f"{s:<{width}}"` keeps s as a prefix, has length max(\|s\|, width), and pads only with spaces |
| PrParser.CapturedDigits | cherrytree/github_utils.py:84-87 | whatever the search captures is a non-empty run of ASCII digits |
| PrParser.SquashSearchFinds | cherrytree/github_utils.py:19 | the leftmost-position search finds the `(#N)` match wherever it sits |
| PrParser.MergeSummaryParses | cherrytree/github_utils.py:82-88 | `Merge pull request #N from …` yields N whatever follows, even a trailing `(#M)` (leftmost match wins) |
| PrParser.SquashSummaryParses | cherrytree/github_utils.py:82-88 | a summary ending `(#N)` (optionally followed by one newline) that is not a merge summary yields N |
| PrParser.ParsePrNumber | cherrytree/github_utils.py:82-88 | `commit_pr_number` (`CommitPrNumber` applies it to `commit.summary`) reads a number only from a summary that starts with `Merge pull request #` or whose last character before `$` is `)` |
| PrParser.ParsedSummaryIsShaped | cherrytree/github_utils.py:82-88 | a number is returned only for summaries of one of the two shapes |
| PrParser.ParseNoneIffUnshaped | cherrytree/github_utils.py:82-88 | `None` is returned exactly when the summary has neither shape |
| PrParser.MergeNumberRoundTrip | cherrytree/github_utils.py:82-88 | every PR number written into a merge summary is read back unchanged |
| PrParser.SquashNumberRoundTrip | cherrytree/github_utils.py:82-88 | every PR number written into a squash summary is read back unchanged, unless the title makes it a merge summary |
| OrderedDict.Assign | cherrytree/github_utils.py:97 | `d[k] = v` on an existing key changes only that entry's value and keeps the key order. On a new key it appends at the end. Keys stay distinct |
| OrderedDict.GetAt | cherrytree/github_utils.py:97 | with distinct keys, looking up the key stored at any position returns the value stored there |
| OrderedDict.GetAfterAssign | cherrytree/github_utils.py:97 | after `d[k] = v`, reading k gives v and reading any other key gives its old value |
| CommitPrMap.PrKey | cherrytree/github_utils.py:96 | the truthiness test treats `None` and `0` alike: it passes exactly for a parsed non-zero number |
| CommitPrMap.Step | cherrytree/github_utils.py:95-97 | a commit without a non-zero PR leaves the map unchanged. A known PR gets the commit as its value in place. A new PR is appended |
| CommitPrMap.CommitPrMap | cherrytree/github_utils.py:91-98 | the map built from the history has pairwise distinct keys, as an `OrderedDict`'s are |
| CommitPrMap.GetCommitPrMap | cherrytree/github_utils.py:91-98 | the loop over `reversed(commits)` builds a map with distinct keys, which are exactly the non-zero PR numbers the commits name |
| CommitPrMap.CommitPrMapKeys | cherrytree/github_utils.py:91-98 | a PR is a key iff it is non-zero and some commit's summary names it |
| CommitPrMap.CommitPrMapValues | cherrytree/github_utils.py:94-97 | each PR maps to the newest commit naming it, because later assignments overwrite the value |
| CommitPrMap.CommitPrMapOrder | cherrytree/github_utils.py:93-97 | keys appear in decreasing input position of their oldest referencing commit: oldest first |
| Dedup.DeduplicatePrs | cherrytree/github_utils.py:134-141 | the loop with a seen-set returns a subsequence of the input with pairwise distinct numbers, covering every input number |
| Dedup.DedupFrom | cherrytree/github_utils.py:137-140 | the rest of the loop, after the numbers in `seen`, is no longer than its input and keeps no issue whose number was seen |
| Dedup.Deduplicate | cherrytree/github_utils.py:134-141 | the output is a subsequence, its numbers are pairwise distinct, and its number set equals the input's |
| Dedup.DeduplicateKeepsFirst | cherrytree/github_utils.py:137-140 | each kept issue is the first input issue with its number, and kept issues follow first-occurrence order |
| Dedup.KeptIsFirst | cherrytree/github_utils.py:137-140 | after any set of already-seen numbers, the t-th issue the loop keeps is the first input issue carrying its number |
| Dedup.KeptInOrder | cherrytree/github_utils.py:137-140 | of two issues the loop keeps, the earlier kept one has the earlier first occurrence |
| Dedup.DeduplicateIdempotent | cherrytree/github_utils.py:134-141 | deduplicating twice equals deduplicating once |
| Dedup.DeduplicateEmpty | cherrytree/github_utils.py:134-141 | the empty list gives the empty list |
| Truncate.SliceStop | cherrytree/github_utils.py:103 | the end of `value[:stop]`: `stop` itself when it is within the string, counted from the end when negative (clamped at 0), and the length when past the end |
| Truncate.Kept | cherrytree/github_utils.py:103 | for every width, including the negative slice bounds of widths below 3, `value[:width-3].strip()` is a prefix of `value.strip()`, at most width−3 long when width ≥ 3 |
| Truncate.IsCut | cherrytree/github_utils.py:104 | the length test adds the ellipsis exactly when the kept text is a proper prefix of the stripped value |
| Truncate.TruncateStr | cherrytree/github_utils.py:101-106 | raises iff the width is negative or above `sys.maxsize`. The error is "too many digits" when the width's magnitude exceeds `sys.maxsize`, and "sign not allowed" for −`sys.maxsize` ≤ width < 0. Otherwise the result starts with the kept text, is at least `width` long, and has `...` right after the kept text whenever the cut lost characters |
| Truncate.TruncateToWidth | cherrytree/github_utils.py:101-106 | for a width from 3 to `sys.maxsize` the result is exactly `width` long. `...` follows the kept text iff the cut lost characters, and everything after is spaces. A stripped value longer than width−3 is always cut |
| Truncate.ColumnShape | cherrytree/github_utils.py:105-106 | the padded column has the text, then the ellipsis only if there was a cut, then spaces to the width |
| Truncate.DefaultColumn | cherrytree/github_utils.py:101-106 | at the default width of 90 every value comes back as a column of exactly 90 characters |
| Truncate.ShortValue | cherrytree/github_utils.py:101-106 | a value of at most width−3 characters comes out stripped and right-padded to width, with no ellipsis |
| Truncate.PadShort | cherrytree/github_utils.py:106 | padding a string no longer than `width` appends exactly the missing spaces |
| GitProbe.OsSystem | cherrytree/github_utils.py:117-121 | raises with stderr iff `raise_on_error` and the exit code is non-zero. Otherwise returns stdout |
| GitProbe.FirstLine | cherrytree/github_utils.py:111 | `.*` takes the longest newline-free prefix |
| GitProbe.ParseHead | cherrytree/github_utils.py:111-114 | the result has no newline, and a line starting with neither prefix gives `""` |
| GitProbe.ParseHeadOfStatusLine | cherrytree/github_utils.py:109-114 | parsing `On branch B` / `HEAD detached at T` status lines gives back B / T |
| GitProbe.GitGetCurrentHead | cherrytree/github_utils.py:109-114 | fails iff the `git status \| head -1` pipeline exits non-zero (its exit code is `head`'s, so a failing `git status` alone gives `""`), and the failure carries the pipeline's stderr. Otherwise returns the parsed HEAD |
| GitProbe.CheckIfBranchExists | cherrytree/github_utils.py:124-131 | commands are issued in the order status, checkout branch, checkout old HEAD. `false` iff status succeeded and the checkout failed, with nothing issued after it. The restore is issued exactly once, iff the checkout succeeded. `true` iff the restore succeeded. A failing status raises its stderr with nothing else issued, and a failing restore raises the restore's stderr |
| RepoLocator.Dirname | cherrytree/github_utils.py:157 | `dirname` returns a prefix of the path that is either the path itself or strictly shorter |
| RepoLocator.DirnameFixedPoints | cherrytree/github_utils.py:157-162 | `dirname(p) == p` exactly for paths made only of slashes (including the empty path) |
| RepoLocator.TraverseDirs | cherrytree/github_utils.py:152-162 | the walk is non-empty and starts at the given path |
| RepoLocator.TraverseDirsSteps | cherrytree/github_utils.py:156-161 | each later candidate is the `dirname` of the one before it, and differs from it |
| RepoLocator.TraverseDirsEndsAtRoot | cherrytree/github_utils.py:157-162 | the last candidate is a fixed point of `dirname`: the walk visits the root and stops there |
| RepoLocator.TraverseDirsShrinks | cherrytree/github_utils.py:152-162 | candidates are strictly shrinking prefixes of the start, so there are at most \|path\|+1 of them |
| RepoLocator.GetGitRepo | cherrytree/github_utils.py:164-171 | returns the first candidate that is a repository. If there is none, fails with an error carrying cwd, and no candidate is a repository |

## Left out

- GitHub access: `get_github_instance`, `get_repo`, `get_issues_from_labels`,
  `get_issue` and `get_commits` are network calls through the GitHub client
  library. They supply the `Commit` and `Issue` values the model takes as
  input.
- `get_access_token`: a credential and environment lookup with no logic to
  verify.
- Process execution: `delegator.run` is the `Runner` parameter. Shell quoting of
  the branch name in `git checkout {branch}` is not modelled. The command text is
  the plain concatenation.
- `os.getcwd()` is the `cwd` parameter. GitPython's `Repo(dir_)` is the `isRepo`
  predicate, with the repository handle represented by its directory.
- GitProbe.CheckIfBranchExists: states only which commands are issued and what
  is returned. Whether git really puts HEAD back is the shell's business. So is
  what happens if the restore raises, since the source has no `try/finally`.
- `\d` and `int()`: only ASCII digits are modelled. Python also accepts other
  Unicode decimal digits.
- Text.DecimalRoundTrip: does not model CPython's limit of 4300 digits on
  `int()` of a string, past which `int()` raises `ValueError`. The round trip
  and `PrParser.ParsePrNumber` are stated for numerals of any length, so a
  summary with a longer digit run is read as a number here where the source
  raises.
- Truncate.TruncateStr: a width between about 2^31 and `sys.maxsize` makes
  CPython run out of memory building the padded string (`MemoryError` or
  `OverflowError`). The model returns the padded string, as for any other
  width in range. A width of more than 4300 decimal digits fails earlier
  still on CPython 3.11 and later: formatting `{width}` raises the
  int-to-str limit's `ValueError`, which the model reports as
  `TooManyDigits`.
- GitProbe.GitGetCurrentHead: the shell is given the pipeline
  `git status | head -1` as one command. The model takes its exit code and
  output as the shell reports them. A `git status` that fails inside the
  pipeline therefore shows up as empty output and the result `""`, not as an
  error.
- `str.strip()` uses the full list of characters `str.isspace()` accepts.
  Python strings that hold lone surrogates have no Dafny counterpart.
- `truncate_str`'s default `width=90` is the constant `Truncate.DefaultWidth`.
  Dafny functions have no default arguments.
- RepoLocator.Dirname: only POSIX paths (`posixpath`) are modelled. Windows
  drive and UNC handling and `bytes` paths are not.
- `_traverse_dirs` is a lazy generator. `TraverseDirs` is its full output.
  `GetGitRepo` consumes it lazily, as the `for` loop does.
- `RepoNotFound` carries the directory the `FileNotFoundError` message names,
  not the message text `"No git repo found in path: " + cwd` itself.
- `Commit` carries `summary`, the only field the core reads, plus `hexsha` to
  tell commits apart. `Issue` carries `number`, the only field
  `deduplicate_prs` reads, plus `title`.

=== FILE: commit_pr_map.dfy ===
/** `get_commit_pr_map` (cherrytree/github_utils.py): from a newest-first
    commit list to an ordered map from PR number to commit. */
module CommitPrMap {
  import opened Wrappers
  import opened PrParser
  import opened OrderedDict

  type PrMap = Dict<nat, Commit>

  /** The commit's summary names PR `n`. */
  predicate Refers(c: Commit, n: nat) {
    CommitPrNumber(c) == Some(n)
  }

  /** The PR number as `if pr_number:` sees it: `None` and `0` are both
      falsy, so both read as 0 here. */
  function PrKey(c: Commit): (n: nat)
    ensures n != 0 <==> CommitPrNumber(c).Some? && CommitPrNumber(c).value != 0
    ensures n != 0 ==> Refers(c, n)
  {
    match CommitPrNumber(c)
    case Some(n) => n
    case None => 0
  }

  /** One loop iteration: `if pr_number: d[pr_number] = commit`. */
  function Step(d: PrMap, c: Commit): (r: PrMap)
    requires DistinctKeys(d)
    ensures DistinctKeys(r)
    ensures PrKey(c) == 0 ==> r == d
    ensures PrKey(c) != 0 && PrKey(c) in Keys(d) ==>
              |r| == |d| && Keys(r) == Keys(d)
              && forall i :: 0 <= i < |d| ==> r[i] == if d[i].0 == PrKey(c) then (PrKey(c), c) else d[i]
    ensures PrKey(c) != 0 && PrKey(c) !in Keys(d) ==> r == d + [(PrKey(c), c)] && Keys(r) == Keys(d) + [PrKey(c)]
  {
    var n := PrKey(c);
    if n != 0 then Assign(d, n, c) else d
  }

  /** `get_commit_pr_map(commits)`. The loop visits `reversed(commits)`, so
      `commits[0]`, the newest, is visited last, after all of `commits[1..]`. */
  function CommitPrMap(commits: seq<Commit>): (m: PrMap)
    ensures DistinctKeys(m)
  {
    if |commits| == 0 then [] else Step(CommitPrMap(commits[1..]), commits[0])
  }

  /** The loop as written: walk the list from its end to its start. */
  method GetCommitPrMap(commits: seq<Commit>) returns (d: PrMap)
    ensures d == CommitPrMap(commits)
    ensures DistinctKeys(d)
    ensures forall n :: n in Keys(d) <==> n != 0 && NewestRef(commits, n) < |commits|
  {
    d := [];
    var i := |commits|;
    while i > 0
      invariant 0 <= i <= |commits|
      invariant d == CommitPrMap(commits[i..])
    {
      i := i - 1;
      assert commits[i..][1..] == commits[i + 1..];
      d := Step(d, commits[i]);
    }
    assert commits[0..] == commits;
    CommitPrMapKeys(commits);
  }

  /** Index of the newest commit naming `n`, or `|commits|` if none does. */
  function NewestRef(commits: seq<Commit>, n: nat): (i: nat)
    ensures i <= |commits|
    ensures i < |commits| ==> Refers(commits[i], n)
    ensures forall j :: 0 <= j < i ==> !Refers(commits[j], n)
  {
    NewestFrom(commits, n, 0)
  }

  /** The first index from `k` on whose commit names `n`, or `|commits|`. */
  function NewestFrom(commits: seq<Commit>, n: nat, k: nat): (i: nat)
    requires k <= |commits|
    ensures k <= i <= |commits|
    ensures i < |commits| ==> Refers(commits[i], n)
    ensures forall j :: k <= j < i ==> !Refers(commits[j], n)
    decreases |commits| - k
  {
    if k == |commits| then k
    else if Refers(commits[k], n) then k
    else
      NewestFrom(commits, n, k + 1)
  }

  /** Scanning `commits` from `k + 1` is scanning its tail from `k`, one
      position further on. */
  lemma {:induction false} NewestFromShift(commits: seq<Commit>, n: nat, k: nat)
    requires k < |commits|
    ensures NewestFrom(commits, n, k + 1) == 1 + NewestFrom(commits[1..], n, k)
    decreases |commits| - k
  {
    if k + 1 < |commits| {
      assert commits[k + 1] == commits[1..][k];
      if !Refers(commits[k + 1], n) {
        NewestFromShift(commits, n, k + 1);
      }
    }
  }

  /** Past a newest commit that does not name `n`, the search goes on in
      the older ones. */
  lemma NewestRefTail(commits: seq<Commit>, n: nat)
    requires 0 < |commits| && !Refers(commits[0], n)
    ensures NewestRef(commits, n) == 1 + NewestRef(commits[1..], n)
  {
    NewestFromShift(commits, n, 0);
  }

  /** Index of the oldest commit naming `n`, or -1 if none does. */
  function OldestRef(commits: seq<Commit>, n: nat): (i: int)
    ensures -1 <= i < |commits|
    ensures i >= 0 ==> Refers(commits[i], n)
    ensures forall j :: i < j < |commits| ==> !Refers(commits[j], n)
  {
    if |commits| == 0 then -1
    else
      var older := OldestRef(commits[1..], n);
      if older >= 0 then older + 1
      else if Refers(commits[0], n) then 0
      else -1
  }

  /** The keys are exactly the non-zero PR numbers some commit names. */
  lemma {:induction false} CommitPrMapKeys(commits: seq<Commit>)
    ensures forall n :: n in Keys(CommitPrMap(commits)) <==> n != 0 && NewestRef(commits, n) < |commits|
  {
    if |commits| > 0 {
      var c, tail := commits[0], commits[1..];
      CommitPrMapKeys(tail);
      forall n
        ensures n in Keys(CommitPrMap(commits)) <==> n != 0 && NewestRef(commits, n) < |commits|
      {
        if Refers(c, n) {
          assert n != 0 ==> PrKey(c) == n;
        } else {
          NewestRefTail(commits, n);
        }
      }
    }
  }

  /** Each PR maps to the newest commit that names it: the assignment for a
      newer commit overwrites the value of an older one. */
  lemma CommitPrMapValues(commits: seq<Commit>)
    ensures var m := CommitPrMap(commits);
            forall j :: 0 <= j < |m| ==>
              NewestRef(commits, m[j].0) < |commits| && m[j].1 == commits[NewestRef(commits, m[j].0)]
  {
    var m := CommitPrMap(commits);
    forall j | 0 <= j < |m|
      ensures NewestRef(commits, m[j].0) < |commits| && m[j].1 == commits[NewestRef(commits, m[j].0)]
    {
      CommitPrMapValueAt(commits, j);
    }
  }

  /** `CommitPrMapValues` for the entry at position `j`. */
  lemma {:induction false} CommitPrMapValueAt(commits: seq<Commit>, j: nat)
    requires j < |CommitPrMap(commits)|
    ensures var m := CommitPrMap(commits);
            NewestRef(commits, m[j].0) < |commits| && m[j].1 == commits[NewestRef(commits, m[j].0)]
  {
    var c, tail := commits[0], commits[1..];
    var older := CommitPrMap(tail);
    var m := CommitPrMap(commits);
    var n := PrKey(c);
    if n != 0 && j < |older| && older[j].0 == n {
      assert m[j] == (n, c);
    } else if n != 0 && j == |older| {
      assert m[j] == (n, c);
    } else {
      assert j < |older| && m[j] == older[j];
      var k := m[j].0;
      MapKeyNonZero(tail, j);
      assert !Refers(c, k);
      CommitPrMapValueAt(tail, j);
      NewestRefTail(commits, k);
    }
  }

  /** The keys are ordered oldest first: by the position of the oldest
      commit naming each PR, since a reassigned key does not move. */
  lemma CommitPrMapOrder(commits: seq<Commit>)
    ensures var m := CommitPrMap(commits);
            forall j1, j2 :: 0 <= j1 < j2 < |m| ==> OldestRef(commits, m[j1].0) > OldestRef(commits, m[j2].0)
  {
    var m := CommitPrMap(commits);
    forall j1, j2 | 0 <= j1 < j2 < |m|
      ensures OldestRef(commits, m[j1].0) > OldestRef(commits, m[j2].0)
    {
      CommitPrMapOrderAt(commits, j1, j2);
    }
  }

  /** `CommitPrMapOrder` for the entries at positions `j1 < j2`. */
  lemma {:induction false} CommitPrMapOrderAt(commits: seq<Commit>, j1: nat, j2: nat)
    requires j1 < j2 < |CommitPrMap(commits)|
    ensures var m := CommitPrMap(commits);
            OldestRef(commits, m[j1].0) > OldestRef(commits, m[j2].0)
  {
    var c, tail := commits[0], commits[1..];
    var older := CommitPrMap(tail);
    var m := CommitPrMap(commits);
    var n := PrKey(c);
    MapKeyReferenced(tail, j1);
    if j2 < |older| {
      assert Keys(m)[j1] == Keys(older)[j1] && Keys(m)[j2] == Keys(older)[j2];
      MapKeyReferenced(tail, j2);
      CommitPrMapOrderAt(tail, j1, j2);
    } else {
      assert m == older + [(n, c)];
      assert m[j1] == older[j1] && m[j2] == (n, c);
      CommitPrMapKeys(tail);
      assert OldestRef(tail, n) == -1;
    }
  }

  /** Every key of the map is named by some commit. */
  lemma MapKeyReferenced(commits: seq<Commit>, j: nat)
    requires j < |CommitPrMap(commits)|
    ensures OldestRef(commits, CommitPrMap(commits)[j].0) >= 0
  {
    CommitPrMapKeys(commits);
    assert Keys(CommitPrMap(commits))[j] == CommitPrMap(commits)[j].0;
  }

  /** No key of the map is 0. */
  lemma MapKeyNonZero(commits: seq<Commit>, j: nat)
    requires j < |CommitPrMap(commits)|
    ensures CommitPrMap(commits)[j].0 != 0
  {
    CommitPrMapKeys(commits);
    assert Keys(CommitPrMap(commits))[j] == CommitPrMap(commits)[j].0;
  }
}

=== FILE: dedup.dfy ===
/** `deduplicate_prs` (cherrytree/github_utils.py): keep the first issue
    seen for each number, in input order. */
module Dedup {

  /** An issue or pull request; the deduplication reads only `number`. */
  datatype Issue = Issue(number: int, title: string)

  /** The numbers occurring in `prs`. */
  function Numbers(prs: seq<Issue>): set<int> {
    set i | 0 <= i < |prs| :: prs[i].number
  }

  predicate DistinctNumbers(prs: seq<Issue>) {
    forall i, j :: 0 <= i < j < |prs| ==> prs[i].number != prs[j].number
  }

  /** Index of the first issue numbered `n`, or `|prs|` if there is none. */
  function FirstIndex(prs: seq<Issue>, n: int): (i: nat)
    ensures i <= |prs|
    ensures i < |prs| ==> prs[i].number == n
    ensures forall j :: 0 <= j < i ==> prs[j].number != n
  {
    if |prs| == 0 || prs[0].number == n then 0 else 1 + FirstIndex(prs[1..], n)
  }

  /** `a` can be obtained from `b` by deleting elements. */
  ghost predicate IsSubsequence<T>(a: seq<T>, b: seq<T>)
    decreases |b|
  {
    |a| == 0 || (|b| > 0 && ((a[0] == b[0] && IsSubsequence(a[1..], b[1..])) || IsSubsequence(a, b[1..])))
  }

  /** The rest of the loop once the numbers in `seen` have been taken: no
      longer than the input, and never an issue whose number was seen. */
  function DedupFrom(prs: seq<Issue>, seen: set<int>): (r: seq<Issue>)
    ensures |r| <= |prs|
    ensures forall i :: 0 <= i < |r| ==> r[i].number !in seen
  {
    if |prs| == 0 then []
    else if prs[0].number in seen then DedupFrom(prs[1..], seen)
    else [prs[0]] + DedupFrom(prs[1..], seen + {prs[0].number})
  }

  /** `deduplicate_prs(prs)`: a subsequence of the input whose numbers are
      pairwise distinct and are exactly the input's numbers. */
  function Deduplicate(prs: seq<Issue>): (r: seq<Issue>)
    ensures IsSubsequence(r, prs)
    ensures DistinctNumbers(r)
    ensures Numbers(r) == Numbers(prs)
  {
    DedupFromFacts(prs, {});
    DedupFrom(prs, {})
  }

  /** The loop as written, with the set of numbers seen so far. */
  method DeduplicatePrs(prs: seq<Issue>) returns (ret: seq<Issue>)
    ensures ret == Deduplicate(prs)
    ensures IsSubsequence(ret, prs) && DistinctNumbers(ret) && Numbers(ret) == Numbers(prs)
  {
    var seen: set<int> := {};
    ret := [];
    var i := 0;
    while i < |prs|
      invariant 0 <= i <= |prs|
      invariant ret + DedupFrom(prs[i..], seen) == Deduplicate(prs)
    {
      var pr := prs[i];
      assert prs[i..][1..] == prs[i + 1..];
      if pr.number !in seen {
        assert DedupFrom(prs[i..], seen) == [pr] + DedupFrom(prs[i + 1..], seen + {pr.number});
        AppendOne(ret, pr, DedupFrom(prs[i + 1..], seen + {pr.number}));
        ret := ret + [pr];
        seen := seen + {pr.number};
      }
      i := i + 1;
    }
  }

  /** Moving one issue from the rest of the loop onto `ret`; kept as a
      lemma so the loop's proof does not redo sequence associativity among
      its other facts. */
  lemma AppendOne(ret: seq<Issue>, pr: Issue, rest: seq<Issue>)
    ensures ret + ([pr] + rest) == (ret + [pr]) + rest
  {
  }

  /** What the loop adds from `prs` after having seen `seen`: distinct new
      numbers, every unseen number once, as a subsequence. */
  lemma {:induction false} DedupFromFacts(prs: seq<Issue>, seen: set<int>)
    ensures var r := DedupFrom(prs, seen);
            && DistinctNumbers(r)
            && Numbers(r) == Numbers(prs) - seen
            && IsSubsequence(r, prs)
  {
    if |prs| > 0 {
      var p, tail := prs[0], prs[1..];
      assert prs == [p] + tail;
      NumbersCons(p, tail);
      if p.number in seen {
        DedupFromFacts(tail, seen);
        SubsequenceOfTail(DedupFrom(tail, seen), p, tail);
      } else {
        var rest := DedupFrom(tail, seen + {p.number});
        DedupFromFacts(tail, seen + {p.number});
        var r := [p] + rest;
        assert r[1..] == rest;
        forall i, j | 0 <= i < j < |r| ensures r[i].number != r[j].number {
          if i == 0 {
            assert r[j] == rest[j - 1];
            assert rest[j - 1].number in Numbers(rest);
          } else {
            assert r[i] == rest[i - 1] && r[j] == rest[j - 1];
          }
        }
        NumbersCons(p, rest);
      }
    }
  }

  lemma NumbersCons(x: Issue, s: seq<Issue>)
    ensures Numbers([x] + s) == {x.number} + Numbers(s)
  {
    var xs := [x] + s;
    assert xs[0] == x;
    forall n | n in Numbers(xs) ensures n in {x.number} + Numbers(s) {
      var i :| 0 <= i < |xs| && xs[i].number == n;
      if i > 0 { assert s[i - 1] == xs[i]; }
    }
    forall n | n in Numbers(s) ensures n in Numbers(xs) {
      var i :| 0 <= i < |s| && s[i].number == n;
      assert xs[i + 1] == s[i];
    }
  }

  /** Skipping the head of `b` keeps subsequences. */
  lemma SubsequenceOfTail<T>(a: seq<T>, x: T, b: seq<T>)
    requires IsSubsequence(a, b)
    ensures IsSubsequence(a, [x] + b)
  {
    assert ([x] + b)[1..] == b;
  }

  /** The `t`-th kept issue is the first in `prs` with its number. */
  lemma {:induction false} KeptIsFirst(prs: seq<Issue>, seen: set<int>, t: nat)
    requires t < |DedupFrom(prs, seen)|
    ensures var r := DedupFrom(prs, seen);
            FirstIndex(prs, r[t].number) < |prs| && r[t] == prs[FirstIndex(prs, r[t].number)]
  {
    var p, tail := prs[0], prs[1..];
    var r := DedupFrom(prs, seen);
    if p.number in seen {
      KeptIsFirst(tail, seen, t);
      assert r[t] == DedupFrom(tail, seen)[t];
    } else if t > 0 {
      var seen' := seen + {p.number};
      KeptIsFirst(tail, seen', t - 1);
      assert r[t] == DedupFrom(tail, seen')[t - 1];
    }
  }

  /** Kept issues appear in the order of their first occurrences. */
  lemma {:induction false} KeptInOrder(prs: seq<Issue>, seen: set<int>, t1: nat, t2: nat)
    requires t1 < t2 < |DedupFrom(prs, seen)|
    ensures var r := DedupFrom(prs, seen);
            FirstIndex(prs, r[t1].number) < FirstIndex(prs, r[t2].number)
  {
    var p, tail := prs[0], prs[1..];
    var r := DedupFrom(prs, seen);
    if p.number in seen {
      KeptInOrder(tail, seen, t1, t2);
      assert r[t1] == DedupFrom(tail, seen)[t1];
      assert r[t2] == DedupFrom(tail, seen)[t2];
    } else {
      var seen' := seen + {p.number};
      assert r[t2] == DedupFrom(tail, seen')[t2 - 1];
      if t1 > 0 {
        KeptInOrder(tail, seen', t1 - 1, t2 - 1);
        assert r[t1] == DedupFrom(tail, seen')[t1 - 1];
      }
    }
  }

  /** Each kept issue is the first with its number, in first-occurrence order. */
  lemma DeduplicateKeepsFirst(prs: seq<Issue>)
    ensures var r := Deduplicate(prs);
            && (forall t :: 0 <= t < |r| ==>
                  FirstIndex(prs, r[t].number) < |prs| && r[t] == prs[FirstIndex(prs, r[t].number)])
            && (forall t1, t2 :: 0 <= t1 < t2 < |r| ==>
                  FirstIndex(prs, r[t1].number) < FirstIndex(prs, r[t2].number))
  {
    var r := Deduplicate(prs);
    assert r == DedupFrom(prs, {});
    forall t | 0 <= t < |r|
      ensures FirstIndex(prs, r[t].number) < |prs| && r[t] == prs[FirstIndex(prs, r[t].number)]
    {
      KeptIsFirst(prs, {}, t);
    }
    forall t1, t2 | 0 <= t1 < t2 < |r|
      ensures FirstIndex(prs, r[t1].number) < FirstIndex(prs, r[t2].number)
    {
      KeptInOrder(prs, {}, t1, t2);
    }
  }

  /** A list already free of duplicates, avoiding `seen`, passes unchanged. */
  lemma {:induction false} DedupFromDistinct(prs: seq<Issue>, seen: set<int>)
    requires DistinctNumbers(prs)
    requires forall i :: 0 <= i < |prs| ==> prs[i].number !in seen
    ensures DedupFrom(prs, seen) == prs
  {
    if |prs| > 0 {
      var tail := prs[1..];
      forall i | 0 <= i < |tail| ensures tail[i].number !in seen + {prs[0].number} {
        assert tail[i] == prs[i + 1];
      }
      DedupFromDistinct(tail, seen + {prs[0].number});
    }
  }

  /** Deduplicating twice is deduplicating once. */
  lemma DeduplicateIdempotent(prs: seq<Issue>)
    ensures Deduplicate(Deduplicate(prs)) == Deduplicate(prs)
  {
    DedupFromDistinct(Deduplicate(prs), {});
  }

  /** An empty list gives an empty list. */
  lemma DeduplicateEmpty()
    ensures Deduplicate([]) == []
  {
  }
}

=== FILE: git_probe.dfy ===
/** Reading the current HEAD from `git status`, the `os_system` error rule,
    and the branch probe `check_if_branch_exists`
    (cherrytree/github_utils.py). Shell commands run through an abstract
    runner. */
module GitProbe {
  import opened Wrappers

  /** What `delegator.run(cmd)` reports of a finished command. */
  datatype Completed = Completed(out: string, err: string, returnCode: int)

  /** `CherryTreeExecutionException(p.err)`. */
  datatype ExecError = ExecError(stderr: string)

  /** The shell: given the commands already issued and the next command,
      what that command reports. Passing the history lets the outcome
      depend on earlier checkouts. */
  type Runner = (seq<string>, string) -> Completed

  /** The error rule of `os_system`: raise with the standard error exactly
      when errors are to be raised and the command failed; otherwise return
      the standard output. */
  function OsSystem(p: Completed, raiseOnError: bool): (r: Result<string, ExecError>)
    ensures r.Failure? <==> raiseOnError && p.returnCode != 0
    ensures r.Failure? ==> r.error == ExecError(p.err)
    ensures r.Success? ==> r.value == p.out
  {
    if raiseOnError && p.returnCode != 0 then Failure(ExecError(p.err)) else Success(p.out)
  }

  const DetachedPrefix := "HEAD detached at "
  const BranchPrefix := "On branch "

  /** The text before the first newline: what `.*` matches. */
  function FirstLine(s: string): (line: string)
    ensures line <= s
    ensures '\n' !in line
    ensures |line| < |s| ==> s[|line|] == '\n'
  {
    if |s| == 0 || s[0] == '\n' then [] else [s[0]] + FirstLine(s[1..])
  }

  /** The parsing half of `git_get_current_head`:
      `re.match("(?:HEAD detached at|On branch) (.*)", output)`, group 1,
      or `""` when the line matches neither. */
  function ParseHead(output: string): (head: string)
    ensures '\n' !in head
    ensures !(DetachedPrefix <= output) && !(BranchPrefix <= output) ==> head == ""
  {
    if DetachedPrefix <= output then FirstLine(output[|DetachedPrefix|..])
    else if BranchPrefix <= output then FirstLine(output[|BranchPrefix|..])
    else ""
  }

  /** `git_get_current_head()`, given what the `git status | head -1`
      pipeline reported: its failure is raised, its output parsed. The
      pipeline's exit code is that of `head`, so a failing `git status`
      alone shows up as empty output, not as a failure. */
  function GitGetCurrentHead(status: Completed): (r: Result<string, ExecError>)
    ensures r.Failure? <==> status.returnCode != 0
    ensures r.Failure? ==> r.error == ExecError(status.err)
    ensures r.Success? ==> r.value == ParseHead(status.out)
  {
    match OsSystem(status, true)
    case Failure(e) => Failure(e)
    case Success(out) => Success(ParseHead(out))
  }

  /** Where `git status` says HEAD is. */
  datatype Head = OnBranch(branch: string) | Detached(target: string)

  /** The first line `git status` prints for a HEAD. */
  function StatusLine(h: Head): string {
    match h
    case OnBranch(b) => BranchPrefix + b + "\n"
    case Detached(t) => DetachedPrefix + t + "\n"
  }

  /** The name inside a HEAD. */
  function HeadName(h: Head): string {
    match h
    case OnBranch(b) => b
    case Detached(t) => t
  }

  /** Parsing the status line gives back the branch or detached target,
      whatever `git status` prints after it. */
  lemma ParseHeadOfStatusLine(h: Head, more: string)
    requires '\n' !in HeadName(h)
    ensures ParseHead(StatusLine(h) + more) == HeadName(h)
  {
    match h
    case OnBranch(b) => ParseHeadAfterPrefix(BranchPrefix, b, more);
    case Detached(t) => ParseHeadAfterPrefix(DetachedPrefix, t, more);
  }

  /** `ParseHeadOfStatusLine` for either prefix. */
  lemma ParseHeadAfterPrefix(prefix: string, name: string, more: string)
    requires prefix == BranchPrefix || prefix == DetachedPrefix
    requires '\n' !in name
    ensures ParseHead(prefix + name + "\n" + more) == name
  {
    var line := name + ("\n" + more);
    var s := prefix + line;
    assert prefix + name + "\n" + more == s;
    FirstLineOfLine(name, "\n" + more);
    assert prefix <= s && s[|prefix|..] == line;
    if prefix == BranchPrefix {
      assert s[0] == 'O' != DetachedPrefix[0];
    }
  }

  /** `.*` stops at the newline that ends a line. */
  lemma {:induction false} FirstLineOfLine(line: string, rest: string)
    requires '\n' !in line
    requires |rest| > 0 && rest[0] == '\n'
    ensures FirstLine(line + rest) == line
  {
    if |line| > 0 {
      assert (line + rest)[1..] == line[1..] + rest;
      FirstLineOfLine(line[1..], rest);
    } else {
      assert line + rest == rest;
    }
  }

  const StatusCommand := "git status | head -1"

  function CheckoutCommand(target: string): string {
    "git checkout " + target
  }

  /** The outcome of a probe and the commands it issued, in order. */
  datatype Probe = Probe(outcome: Result<bool, ExecError>, issued: seq<string>)

  /** `check_if_branch_exists(branch)`: read HEAD (raising if the
      `git status | head -1` pipeline exits non-zero), try the checkout,
      report `false` if it fails, otherwise check the old HEAD out again
      (raising if that fails) and report `true`. */
  function CheckIfBranchExists(run: Runner, branch: string): (p: Probe)
    ensures 1 <= |p.issued| <= 3
    ensures p.issued <= [StatusCommand, CheckoutCommand(branch),
                         CheckoutCommand(ParseHead(run([], StatusCommand).out))]
    ensures p.outcome == Success(false) <==>
              run([], StatusCommand).returnCode == 0
              && run([StatusCommand], CheckoutCommand(branch)).returnCode != 0
    ensures p.outcome == Success(false) ==> |p.issued| == 2
    ensures |p.issued| == 3 <==>
              run([], StatusCommand).returnCode == 0
              && run([StatusCommand], CheckoutCommand(branch)).returnCode == 0
    ensures p.outcome == Success(true) <==>
              |p.issued| == 3 && run(p.issued[..2], p.issued[2]).returnCode == 0
    ensures run([], StatusCommand).returnCode != 0 ==>
              p == Probe(Failure(ExecError(run([], StatusCommand).err)), [StatusCommand])
    ensures |p.issued| == 3 && run(p.issued[..2], p.issued[2]).returnCode != 0 ==>
              p.outcome == Failure(ExecError(run(p.issued[..2], p.issued[2]).err))
  {
    match GitGetCurrentHead(run([], StatusCommand))
    case Failure(e) => Probe(Failure(e), [StatusCommand])
    case Success(currentHead) =>
      var tried := [StatusCommand, CheckoutCommand(branch)];
      match OsSystem(run([StatusCommand], CheckoutCommand(branch)), true)
      case Failure(_) => Probe(Success(false), tried)
      case Success(_) =>
        var issued := tried + [CheckoutCommand(currentHead)];
        match OsSystem(run(tried, CheckoutCommand(currentHead)), true)
        case Failure(e) => Probe(Failure(e), issued)
        case Success(_) => Probe(Success(true), issued)
  }
}

=== FILE: ordered_dict.dfy ===
/** Python's `OrderedDict`, as far as `get_commit_pr_map` uses it: an
    association sequence with distinct keys, kept in insertion order. */
module OrderedDict {
  import opened Wrappers

  type Dict<K, V> = seq<(K, V)>

  /** The keys, in iteration order. */
  function Keys<K, V>(d: Dict<K, V>): (ks: seq<K>)
    ensures |ks| == |d|
    ensures forall i :: 0 <= i < |d| ==> ks[i] == d[i].0
  {
    seq(|d|, i requires 0 <= i < |d| => d[i].0)
  }

  predicate DistinctKeys<K(==), V>(d: Dict<K, V>) {
    forall i, j :: 0 <= i < j < |d| ==> d[i].0 != d[j].0
  }

  /** `d.get(k)`. */
  function Get<K(==), V>(d: Dict<K, V>, k: K): (r: Option<V>)
    ensures r.Some? <==> k in Keys(d)
  {
    if |d| == 0 then None
    else if d[0].0 == k then Some(d[0].1)
    else Get(d[1..], k)
  }

  /** `d[k] = v`: a present key keeps its position and gets the new value;
      a new key is appended at the end. */
  function Assign<K(==), V>(d: Dict<K, V>, k: K, v: V): (r: Dict<K, V>)
    requires DistinctKeys(d)
    ensures k in Keys(d) ==> |r| == |d|
    ensures k in Keys(d) ==> forall i :: 0 <= i < |d| ==>
              r[i] == if d[i].0 == k then (k, v) else d[i]
    ensures k !in Keys(d) ==> r == d + [(k, v)]
    ensures DistinctKeys(r)
    ensures Keys(r) == if k in Keys(d) then Keys(d) else Keys(d) + [k]
  {
    if k in Keys(d) then
      var r := seq(|d|, i requires 0 <= i < |d| => if d[i].0 == k then (k, v) else d[i]);
      assert Keys(r) == Keys(d);
      r
    else
      var r := d + [(k, v)];
      assert Keys(r) == Keys(d) + [k];
      r
  }

  /** With distinct keys, reading the key stored at position `i` gives the
      value stored there. */
  lemma {:induction false} GetAt<K, V>(d: Dict<K, V>, i: nat)
    requires DistinctKeys(d) && i < |d|
    ensures Get(d, d[i].0) == Some(d[i].1)
  {
    if i > 0 {
      var tail := d[1..];
      assert d[i] == tail[i - 1];
      assert d[0].0 != d[i].0;
      assert DistinctKeys(tail) by {
        forall a, b | 0 <= a < b < |tail| ensures tail[a].0 != tail[b].0 {
          assert tail[a] == d[a + 1] && tail[b] == d[b + 1];
        }
      }
      GetAt(tail, i - 1);
    }
  }

  /** Reading back after `d[k] = v` gives `v` at `k` and the old value
      elsewhere. */
  lemma GetAfterAssign<K, V>(d: Dict<K, V>, k: K, v: V, k': K)
    requires DistinctKeys(d)
    ensures Get(Assign(d, k, v), k') == if k' == k then Some(v) else Get(d, k')
  {
    var r := Assign(d, k, v);
    if k' in Keys(r) {
      var i :| 0 <= i < |r| && Keys(r)[i] == k';
      GetAt(r, i);
      if k' != k {
        assert i < |d| && r[i] == d[i];
        GetAt(d, i);
      }
    } else {
      assert k' != k && k' !in Keys(d);
    }
  }
}

=== FILE: pr_parser.dfy ===
/** Extracting a pull-request number from a commit summary with
    `PR_REGEX = (^Merge pull request #(\d+) from|\(#(\d+)\)$)` and
    `commit_pr_number` (cherrytree/github_utils.py). */
module PrParser {
  import opened Wrappers
  import opened Text

  /** A commit as the correlation code sees it: only `summary` is read. */
  datatype Commit = Commit(hexsha: string, summary: string)

  const MergeHead := "Merge pull request #"
  const MergeTail := " from"

  /** The summary GitHub writes for a merge commit of PR `digits`. */
  function MergeSummary(digits: string, rest: string): string {
    MergeHead + digits + MergeTail + rest
  }

  /** The summary GitHub writes for a squash commit of PR `digits`. */
  function SquashSummary(title: string, digits: string): string {
    title + "(#" + digits + ")"
  }

  /** A summary that begins like a merge commit's. */
  ghost predicate IsMergeShaped(s: string) {
    exists digits, rest :: IsNumeral(digits) && s == MergeSummary(digits, rest)
  }

  /** A summary that ends like a squash commit's; Python's `$` also matches
      just before a final newline. */
  ghost predicate IsSquashShaped(s: string) {
    exists title, digits ::
      IsNumeral(digits) && (s == SquashSummary(title, digits) || s == SquashSummary(title, digits) + "\n")
  }

  /** The last character before `$` is a `)`. */
  predicate ClosesParen(s: string) {
    0 < LineEnd(s) && s[LineEnd(s) - 1] == ')'
  }

  /** Where `$` can match a `)`: the end of the string, or just before a
      final newline. */
  function LineEnd(s: string): (e: nat)
    ensures e <= |s|
    ensures e < |s| ==> e == |s| - 1 && s[e] == '\n'
  {
    if |s| > 0 && s[|s| - 1] == '\n' then |s| - 1 else |s|
  }

  /** The first alternative, `^Merge pull request #(\d+) from`, tried at
      position 0 (the only position where `^` holds); yields the capture. */
  function MergeAlternative(s: string): Option<string> {
    if MergeHead <= s then
      var digits := LeadingDigits(s[|MergeHead|..]);
      var after := s[|MergeHead| + |digits|..];
      if |digits| > 0 && MergeTail <= after then Some(digits) else None
    else None
  }

  /** The second alternative, `\(#(\d+)\)$`, tried at position `i`; yields
      the capture. Backtracking of `\d+` cannot help, since the `)` must
      follow the whole digit run. */
  function SquashAlternativeAt(s: string, i: nat): Option<string>
    requires i <= |s|
  {
    var e := LineEnd(s);
    if i + 4 <= e && s[i] == '(' && s[i + 1] == '#' && s[e - 1] == ')' && IsNumeral(s[i + 2..e - 1])
    then Some(s[i + 2..e - 1])
    else None
  }

  /** The leftmost position from `i` on where the second alternative matches. */
  function SquashSearch(s: string, i: nat): Option<string>
    requires i <= |s|
    decreases |s| - i
  {
    match SquashAlternativeAt(s, i)
    case Some(digits) => Some(digits)
    case None => if i == |s| then None else SquashSearch(s, i + 1)
  }

  /** `PR_REGEX.search(s)` reduced to the non-empty capture group
      (`groups[1] or groups[2]`). At position 0 the first alternative is
      tried before the second; at every later position it fails on `^`. */
  function CapturedDigits(s: string): (r: Option<string>)
    ensures r.Some? ==> IsNumeral(r.value)
  {
    match MergeAlternative(s)
    case Some(digits) => Some(digits)
    case None => SquashSearchSound(s, 0); SquashSearch(s, 0)
  }

  /** `commit_pr_number` applied to a summary: `int(...)` of the capture,
      or `None` when the pattern is not found. A number is read only from a
      summary that begins like a merge commit's or whose line ends in `)`. */
  function ParsePrNumber(summary: string): (r: Option<nat>)
    ensures r.Some? ==> MergeHead <= summary || ClosesParen(summary)
  {
    SquashSearchSound(summary, 0);
    match CapturedDigits(summary)
    case Some(digits) => Some(DecimalValue(digits))
    case None => None
  }

  /** `commit_pr_number(commit)`; `ParsedSummaryIsShaped` and
      `ParseNoneIffUnshaped` say which summaries yield a number. */
  function CommitPrNumber(c: Commit): (r: Option<nat>)
  {
    ParsePrNumber(c.summary)
  }

  /** Whatever the search returns is a match of the second alternative at
      some position. */
  lemma {:induction false} SquashSearchSound(s: string, i: nat)
    requires i <= |s|
    ensures SquashSearch(s, i).Some? ==>
              exists p :: i <= p <= |s| && SquashAlternativeAt(s, p) == SquashSearch(s, i)
    decreases |s| - i
  {
    if SquashAlternativeAt(s, i).None? && i < |s| {
      SquashSearchSound(s, i + 1);
    }
  }

  /** The second alternative matches at one position at most: a second `(`
      would have to sit inside the digit run or on the `#`. */
  lemma SquashPositionUnique(s: string, i: nat, j: nat)
    requires i <= |s| && j <= |s|
    requires SquashAlternativeAt(s, i).Some? && SquashAlternativeAt(s, j).Some?
    ensures i == j
  {
  }

  /** The search from `i` finds the match at any later position `p`. */
  lemma {:induction false} SquashSearchFinds(s: string, i: nat, p: nat)
    requires i <= p <= |s|
    requires SquashAlternativeAt(s, p).Some?
    ensures SquashSearch(s, i) == SquashAlternativeAt(s, p)
    decreases p - i
  {
    if SquashAlternativeAt(s, i).Some? {
      SquashPositionUnique(s, i, p);
    } else {
      SquashSearchFinds(s, i + 1, p);
    }
  }

  /** A merge summary yields its PR number, whatever follows ` from` — even
      a trailing `(#M)`, since the leftmost match wins. */
  lemma MergeSummaryParses(digits: string, rest: string)
    requires IsNumeral(digits)
    ensures ParsePrNumber(MergeSummary(digits, rest)) == Some(DecimalValue(digits))
  {
    var s := MergeSummary(digits, rest);
    assert MergeHead <= s;
    assert s[|MergeHead|..] == digits + (MergeTail + rest);
    LeadingDigitsOfNumeral(digits, MergeTail + rest);
    assert s[|MergeHead| + |digits|..] == MergeTail + rest;
  }

  /** A squash summary that is not also a merge summary yields the number
      in its trailing `(#N)`. */
  lemma SquashSummaryParses(title: string, digits: string, finalNewline: bool)
    requires IsNumeral(digits)
    ensures var s := SquashSummary(title, digits) + (if finalNewline then "\n" else "");
            !IsMergeShaped(s) ==> ParsePrNumber(s) == Some(DecimalValue(digits))
  {
    var s := SquashSummary(title, digits) + (if finalNewline then "\n" else "");
    if !IsMergeShaped(s) {
      MergeAlternativeShaped(s);
      SquashMatchesAtTitleEnd(title, digits, finalNewline);
      SquashSearchFinds(s, 0, |title|);
    }
  }

  /** In a squash summary the second alternative matches right after the title. */
  lemma SquashMatchesAtTitleEnd(title: string, digits: string, finalNewline: bool)
    requires IsNumeral(digits)
    ensures var s := SquashSummary(title, digits) + (if finalNewline then "\n" else "");
            SquashAlternativeAt(s, |title|) == Some(digits)
  {
    var s := SquashSummary(title, digits) + (if finalNewline then "\n" else "");
    var p := |title|;
    var e := LineEnd(s);
    assert e == |title| + |digits| + 3;
    assert s[p] == '(' && s[p + 1] == '#' && s[e - 1] == ')';
    assert s[p + 2..e - 1] == digits;
  }

  /** A match of the first alternative means the summary is merge-shaped. */
  lemma MergeAlternativeShaped(s: string)
    ensures MergeAlternative(s).Some? ==> IsMergeShaped(s)
  {
    if MergeAlternative(s).Some? {
      var digits := MergeAlternative(s).value;
      var k := |MergeHead| + |digits|;
      var rest := s[k + |MergeTail|..];
      assert s[|MergeHead|..k] == digits;
      assert s == s[..|MergeHead|] + s[|MergeHead|..k] + s[k..k + |MergeTail|] + rest;
      assert s == MergeSummary(digits, rest);
    }
  }

  /** A match of the second alternative means the summary is squash-shaped. */
  lemma SquashAlternativeShaped(s: string, p: nat)
    requires p <= |s|
    ensures SquashAlternativeAt(s, p).Some? ==> IsSquashShaped(s)
  {
    if SquashAlternativeAt(s, p).Some? {
      var e := LineEnd(s);
      var digits := s[p + 2..e - 1];
      var title := s[..p];
      assert s[..e] == SquashSummary(title, digits);
      if e < |s| {
        assert s == SquashSummary(title, digits) + "\n";
      } else {
        assert s == SquashSummary(title, digits);
      }
    }
  }

  /** Only summaries of the two shapes yield a number. */
  lemma ParsedSummaryIsShaped(s: string)
    ensures ParsePrNumber(s).Some? ==> IsMergeShaped(s) || IsSquashShaped(s)
  {
    MergeAlternativeShaped(s);
    SquashSearchSound(s, 0);
    if MergeAlternative(s).None? && SquashSearch(s, 0).Some? {
      var p :| 0 <= p <= |s| && SquashAlternativeAt(s, p) == SquashSearch(s, 0);
      SquashAlternativeShaped(s, p);
    }
  }

  /** `commit_pr_number` returns `None` exactly for summaries of neither shape. */
  lemma ParseNoneIffUnshaped(s: string)
    ensures ParsePrNumber(s).None? <==> !IsMergeShaped(s) && !IsSquashShaped(s)
  {
    ParsedSummaryIsShaped(s);
    if IsMergeShaped(s) {
      var digits, rest :| IsNumeral(digits) && s == MergeSummary(digits, rest);
      MergeSummaryParses(digits, rest);
    } else if IsSquashShaped(s) {
      var title, digits :| IsNumeral(digits)
        && (s == SquashSummary(title, digits) || s == SquashSummary(title, digits) + "\n");
      if s == SquashSummary(title, digits) {
        assert s == SquashSummary(title, digits) + "";
        SquashSummaryParses(title, digits, false);
      } else {
        SquashSummaryParses(title, digits, true);
      }
    }
  }

  /** Every PR number survives being written into a merge summary and read back. */
  lemma MergeNumberRoundTrip(n: nat, rest: string)
    ensures ParsePrNumber(MergeSummary(DecimalString(n), rest)) == Some(n)
  {
    MergeSummaryParses(DecimalString(n), rest);
    DecimalRoundTrip(n);
  }

  /** Every PR number survives being written into a squash summary and read
      back, unless the title already makes it a merge summary. */
  lemma SquashNumberRoundTrip(n: nat, title: string)
    ensures !IsMergeShaped(SquashSummary(title, DecimalString(n))) ==>
              ParsePrNumber(SquashSummary(title, DecimalString(n))) == Some(n)
  {
    SquashSummaryParses(title, DecimalString(n), false);
    assert SquashSummary(title, DecimalString(n)) + "" == SquashSummary(title, DecimalString(n));
    DecimalRoundTrip(n);
  }
}

=== FILE: repo_locator.dfy ===
/** `get_git_repo` and its generator `_traverse_dirs`
    (cherrytree/github_utils.py): walk from the working directory up to the
    root and take the first directory that holds a repository. */
module RepoLocator {
  import opened Wrappers

  predicate AllSlashes(s: string) {
    forall i :: 0 <= i < |s| ==> s[i] == '/'
  }

  /** `p.rfind('/')`: the index of the last slash, or -1. */
  function LastSlash(p: string): (i: int)
    ensures -1 <= i < |p|
    ensures i >= 0 ==> p[i] == '/'
    ensures forall j :: i < j < |p| ==> p[j] != '/'
  {
    if |p| == 0 then -1
    else if p[|p| - 1] == '/' then |p| - 1
    else LastSlash(p[..|p| - 1])
  }

  /** `s.rstrip('/')`. */
  function TrimSlashes(s: string): (r: string)
    ensures r <= s
    ensures forall i :: |r| <= i < |s| ==> s[i] == '/'
    ensures |r| > 0 ==> r[|r| - 1] != '/'
  {
    if |s| > 0 && s[|s| - 1] == '/' then TrimSlashes(s[..|s| - 1]) else s
  }

  /** `os.path.dirname(p)` on POSIX: everything up to the last slash,
      without trailing slashes unless it consists of slashes only.
      It returns the path itself or a strictly shorter prefix of it, which
      is what makes the walk terminate. */
  function Dirname(p: string): (r: string)
    ensures r <= p
    ensures r == p || |r| < |p|
  {
    var head := p[..LastSlash(p) + 1];
    if |head| > 0 && !AllSlashes(head) then TrimSlashes(head) else head
  }

  /** The walk stops exactly at paths made of slashes only: `/`, `//`, or
      the empty path a relative walk ends in. */
  lemma DirnameFixedPoints(p: string)
    ensures Dirname(p) == p <==> AllSlashes(p)
  {
    var i := LastSlash(p);
    var head := p[..i + 1];
    if AllSlashes(p) && |p| > 0 {
      assert p[|p| - 1] == '/';
      assert head == p;
    }
    if !AllSlashes(p) && i + 1 == |p| {
      assert head == p;
      assert |TrimSlashes(head)| < |head|;
    }
  }

  /** `list(_traverse_dirs(path))`: the path, then each parent, stopping
      once `dirname` no longer changes the path. */
  function TraverseDirs(path: string): (dirs: seq<string>)
    ensures |dirs| >= 1 && dirs[0] == path
    decreases |path|
  {
    var parent := Dirname(path);
    if parent == path then [path] else [path] + TraverseDirs(parent)
  }

  /** Each directory after the first is the `dirname` of the one before,
      and differs from it. */
  lemma {:induction false} TraverseDirsSteps(path: string)
    ensures var dirs := TraverseDirs(path);
            forall i {:trigger Dirname(dirs[i])} :: 0 <= i < |dirs| - 1 ==>
              dirs[i + 1] == Dirname(dirs[i]) && dirs[i + 1] != dirs[i]
    decreases |path|
  {
    var parent := Dirname(path);
    if parent != path {
      TraverseDirsSteps(parent);
      var dirs := TraverseDirs(path);
      assert dirs == [path] + TraverseDirs(parent);
      forall i | 0 < i < |dirs| - 1
        ensures dirs[i + 1] == Dirname(dirs[i]) && dirs[i + 1] != dirs[i]
      {
        assert dirs[i] == TraverseDirs(parent)[i - 1];
        assert dirs[i + 1] == TraverseDirs(parent)[i];
      }
    }
  }

  /** The walk visits the first fixed point of `dirname` and stops there. */
  lemma {:induction false} TraverseDirsEndsAtRoot(path: string)
    ensures var dirs := TraverseDirs(path);
            Dirname(dirs[|dirs| - 1]) == dirs[|dirs| - 1]
    decreases |path|
  {
    var parent := Dirname(path);
    if parent != path {
      TraverseDirsEndsAtRoot(parent);
      var rest := TraverseDirs(parent);
      assert TraverseDirs(path) == [path] + rest;
      assert TraverseDirs(path)[|TraverseDirs(path)| - 1] == rest[|rest| - 1];
    }
  }

  /** Why the walk ends: each directory is a strictly shorter prefix of the
      one before, so there are at most `|path| + 1` of them. */
  lemma {:induction false} TraverseDirsShrinks(path: string)
    ensures var dirs := TraverseDirs(path);
            && |dirs| <= |path| + 1
            && (forall i, j :: 0 <= i < j < |dirs| ==> |dirs[j]| < |dirs[i]|)
            && (forall i :: 0 <= i < |dirs| ==> dirs[i] <= path)
    decreases |path|
  {
    var parent := Dirname(path);
    if parent != path {
      TraverseDirsShrinks(parent);
      var dirs := TraverseDirs(path);
      assert dirs == [path] + TraverseDirs(parent);
      forall i | 0 < i < |dirs| ensures dirs[i] <= parent <= path {
        assert dirs[i] == TraverseDirs(parent)[i - 1];
      }
      forall i, j | 0 <= i < j < |dirs| ensures |dirs[j]| < |dirs[i]| {
        assert dirs[j] == TraverseDirs(parent)[j - 1];
        if i > 0 {
          assert dirs[i] == TraverseDirs(parent)[i - 1];
        }
      }
    }
  }

  /** `FileNotFoundError("No git repo found in path: " + cwd)`, carried as
      the directory its message names. */
  datatype RepoNotFound = RepoNotFound(cwd: string)

  /** `dirs[k]` is the first of `dirs` that holds a repository. */
  predicate FirstRepoAt(dirs: seq<string>, isRepo: string -> bool, k: nat) {
    k < |dirs| && isRepo(dirs[k]) && NoRepoBefore(dirs, isRepo, k)
  }

  /** None of the first `k` directories of `dirs` holds a repository. */
  predicate NoRepoBefore(dirs: seq<string>, isRepo: string -> bool, k: nat) {
    forall j :: 0 <= j < k && j < |dirs| ==> !isRepo(dirs[j])
  }

  /** `get_git_repo()` with the working directory passed in and `Repo(dir_)`
      succeeding exactly where `isRepo` holds; the repository is returned as
      its directory. The loop consumes the generator lazily, computing each
      parent only when the previous directory is not a repository. */
  method GetGitRepo(cwd: string, isRepo: string -> bool) returns (r: Result<string, RepoNotFound>)
    ensures r.Success? ==> exists k: nat :: FirstRepoAt(TraverseDirs(cwd), isRepo, k) && TraverseDirs(cwd)[k] == r.value
    ensures r.Failure? ==>
              r.error == RepoNotFound(cwd) && forall j :: 0 <= j < |TraverseDirs(cwd)| ==> !isRepo(TraverseDirs(cwd)[j])
  {
    ghost var walk := TraverseDirs(cwd);
    ghost var k: nat := 0;
    var path := cwd;
    while true
      invariant k < |walk| && walk[k] == path
      invariant NoRepoBefore(walk, isRepo, k)
      decreases |walk| - k
    {
      if isRepo(path) {
        assert FirstRepoAt(walk, isRepo, k);
        return Success(path);
      }
      var parent := Dirname(path);
      WalkNext(cwd, k);
      assert NoRepoBefore(walk, isRepo, k + 1);
      if path == parent {
        return Failure(RepoNotFound(cwd));
      }
      k := k + 1;
      path := parent;
    }
  }

  /** Where the walk goes from its `k`-th directory: on to that directory's
      parent, or nowhere when the directory is its own parent. */
  lemma WalkNext(cwd: string, k: nat)
    requires k < |TraverseDirs(cwd)|
    ensures var dirs := TraverseDirs(cwd);
            && (Dirname(dirs[k]) == dirs[k] <==> k == |dirs| - 1)
            && (k < |dirs| - 1 ==> dirs[k + 1] == Dirname(dirs[k]))
  {
    var dirs := TraverseDirs(cwd);
    TraverseDirsSteps(cwd);
    TraverseDirsEndsAtRoot(cwd);
    if k < |dirs| - 1 {
      assert dirs[k + 1] == Dirname(dirs[k]);
    }
  }
}

=== FILE: text.dfy ===
/** The pieces of Python's `str` behaviour that the correlation and
    formatting code relies on: ASCII decimal numerals as read by `\d+` and
    `int(...)`, `str.strip()`, and left-justified padding as done by
    `f"{s:<{width}}"`. */
module Text {

  /** A character matched by `\d`, restricted to ASCII. */
  predicate IsDigit(c: char) {
    '0' <= c <= '9'
  }

  predicate AllDigits(s: string) {
    forall i :: 0 <= i < |s| ==> IsDigit(s[i])
  }

  /** A string matched by `\d+`. */
  predicate IsNumeral(s: string) {
    |s| > 0 && AllDigits(s)
  }

  /** `10^k`. */
  function Pow10(k: nat): (p: nat)
    ensures p >= 1
  {
    if k == 0 then 1 else 10 * Pow10(k - 1)
  }

  /** The value `int(s)` gives a string of decimal digits (leading zeros
      allowed): it has at most `|s|` digits, and exactly that many when the
      first is not `0`. */
  function DecimalValue(s: string): (v: nat)
    requires AllDigits(s)
    ensures v < Pow10(|s|)
    ensures |s| > 0 && s[0] != '0' ==> Pow10(|s| - 1) <= v
  {
    if |s| == 0 then 0
    else DecimalValue(s[..|s| - 1]) * 10 + ((s[|s| - 1] as int) - ('0' as int))
  }

  /** The decimal numeral `str(n)` prints. */
  function DecimalString(n: nat): (s: string)
    ensures IsNumeral(s)
    ensures |s| > 1 ==> s[0] != '0'
  {
    var last := (('0' as int) + n % 10) as char;
    if n < 10 then [last] else DecimalString(n / 10) + [last]
  }

  /** `int(str(n)) == n`. */
  lemma {:induction false} DecimalRoundTrip(n: nat)
    ensures DecimalValue(DecimalString(n)) == n
  {
    var s := DecimalString(n);
    if n >= 10 {
      assert s[..|s| - 1] == DecimalString(n / 10);
      DecimalRoundTrip(n / 10);
    }
  }

  /** The longest run of digits at the start of `s`: what a greedy `\d+`
      (or `\d*`) consumes there. */
  function LeadingDigits(s: string): (d: string)
    ensures d <= s
    ensures AllDigits(d)
    ensures |d| < |s| ==> !IsDigit(s[|d|])
  {
    if |s| > 0 && IsDigit(s[0]) then [s[0]] + LeadingDigits(s[1..]) else []
  }

  /** A numeral followed by a non-digit (or nothing) is exactly what the
      greedy run takes. */
  lemma {:induction false} LeadingDigitsOfNumeral(d: string, t: string)
    requires AllDigits(d)
    requires |t| > 0 ==> !IsDigit(t[0])
    ensures LeadingDigits(d + t) == d
  {
    if |d| > 0 {
      assert (d + t)[1..] == d[1..] + t;
      LeadingDigitsOfNumeral(d[1..], t);
    } else {
      assert d + t == t;
    }
  }

  /** The characters `str.isspace()` accepts, which `str.strip()` removes. */
  predicate IsSpace(c: char) {
    || ('\t' <= c <= '\r')
    || ('\U{1C}' <= c <= '\U{1F}')
    || c == ' '
    || c == '\U{85}'
    || c == '\U{A0}'
    || c == '\U{1680}'
    || ('\U{2000}' <= c <= '\U{200A}')
    || c == '\U{2028}'
    || c == '\U{2029}'
    || c == '\U{202F}'
    || c == '\U{205F}'
    || c == '\U{3000}'
  }

  /** `s.lstrip()`: the suffix left after removing leading whitespace. */
  function TrimLeft(s: string): (r: string)
    ensures |r| <= |s| && r == s[|s| - |r|..]
    ensures forall i :: 0 <= i < |s| - |r| ==> IsSpace(s[i])
    ensures |r| > 0 ==> !IsSpace(r[0])
  {
    if |s| > 0 && IsSpace(s[0]) then TrimLeft(s[1..]) else s
  }

  /** `s.rstrip()`: the prefix left after removing trailing whitespace. */
  function TrimRight(s: string): (r: string)
    ensures r <= s
    ensures forall i :: |r| <= i < |s| ==> IsSpace(s[i])
    ensures |r| > 0 ==> !IsSpace(r[|r| - 1])
  {
    if |s| > 0 && IsSpace(s[|s| - 1]) then TrimRight(s[..|s| - 1]) else s
  }

  /** How many whitespace characters `s.lstrip()` removes. */
  function LeadingSpaces(s: string): (n: nat)
    ensures n <= |s|
  {
    |s| - |TrimLeft(s)|
  }

  /** Every character of `s` is whitespace. */
  predicate AllSpace(s: string) {
    forall i :: 0 <= i < |s| ==> IsSpace(s[i])
  }

  /** `s.strip()`: the part of `s` after its leading whitespace and before
      its trailing whitespace, beginning and ending with a non-space. */
  function Strip(s: string): (r: string)
    ensures LeadingSpaces(s) + |r| <= |s|
    ensures r <= s[LeadingSpaces(s)..]
    ensures AllSpace(s[..LeadingSpaces(s)])
    ensures AllSpace(s[LeadingSpaces(s) + |r|..])
    ensures |r| > 0 ==> !IsSpace(r[0]) && !IsSpace(r[|r| - 1])
  {
    var t := TrimLeft(s);
    var r := TrimRight(t);
    StripShape(s, t, r, LeadingSpaces(s));
    r
  }

  /** The facts `Strip` promises, from those of the two trims it composes. */
  lemma StripShape(s: string, t: string, r: string, n: nat)
    requires n <= |s| && t == s[n..] && r <= t
    requires forall i :: 0 <= i < n ==> IsSpace(s[i])
    requires forall i :: |r| <= i < |t| ==> IsSpace(t[i])
    requires |t| > 0 ==> !IsSpace(t[0])
    requires |r| > 0 ==> !IsSpace(r[|r| - 1])
    ensures n + |r| <= |s| && r <= s[n..]
    ensures AllSpace(s[..n])
    ensures AllSpace(s[n + |r|..])
    ensures |r| > 0 ==> !IsSpace(r[0]) && !IsSpace(r[|r| - 1])
  {
    TrailingOfSuffix(s, t, |r|, n);
    if |r| > 0 {
      assert r[0] == t[0];
    }
  }

  /** Whitespace past `m` in the suffix `s[n..]` is whitespace past `n + m`
      in `s`. */
  lemma TrailingOfSuffix(s: string, t: string, m: nat, n: nat)
    requires n + m <= |s| && t == s[n..]
    requires forall i :: m <= i < |t| ==> IsSpace(t[i])
    ensures AllSpace(s[n + m..])
  {
    var tail := s[n + m..];
    forall i | 0 <= i < |tail| ensures IsSpace(tail[i]) {
      assert tail[i] == t[m + i];
    }
  }

  /** Removing trailing whitespace respects prefixes. */
  lemma {:induction false} TrimRightMonotone(t: string, s: string)
    requires t <= s
    ensures TrimRight(t) <= TrimRight(s)
    decreases |s|
  {
    if |t| < |s| {
      if IsSpace(s[|s| - 1]) {
        assert t <= s[..|s| - 1];
        TrimRightMonotone(t, s[..|s| - 1]);
      }
    }
  }

  /** Removing leading whitespace from a prefix either consumes it entirely
      or leaves a prefix of what it leaves of the whole string. */
  lemma {:induction false} TrimLeftOfPrefix(t: string, s: string)
    requires t <= s
    ensures TrimLeft(t) == [] || TrimLeft(t) <= TrimLeft(s)
  {
    if |t| > 0 && IsSpace(t[0]) {
      assert t[1..] <= s[1..];
      TrimLeftOfPrefix(t[1..], s[1..]);
    }
  }

  /** Stripping a prefix of `s` gives a prefix of the stripped `s`. */
  lemma StripOfPrefix(t: string, s: string)
    requires t <= s
    ensures Strip(t) <= Strip(s)
  {
    TrimLeftOfPrefix(t, s);
    if TrimLeft(t) != [] {
      TrimRightMonotone(TrimLeft(t), TrimLeft(s));
    }
  }

  /** `n` space characters. */
  function Spaces(n: nat): (r: string)
    ensures |r| == n
    ensures forall i :: 0 <= i < n ==> r[i] == ' '
  {
    seq(n, _ => ' ')
  }

  /** `f"{s:<{width}}"`: `s` followed by enough spaces to fill `width`; a
      string already that wide is left as it is. */
  function LeftJustify(s: string, width: int): (r: string)
    ensures s <= r
    ensures |r| == if |s| < width then width else |s|
    ensures forall i :: |s| <= i < |r| ==> r[i] == ' '
  {
    if |s| < width then s + Spaces(width - |s|) else s
  }
}

=== FILE: truncate.dfy ===
/** `truncate_str` (cherrytree/github_utils.py): fit a title into a
    fixed-width column, marking a cut with `...`. */
module Truncate {
  import opened Wrappers
  import opened Text

  const Ellipsis := "..."

  /** The default column width. */
  const DefaultWidth := 90

  /** `sys.maxsize` on a 64-bit build: the largest width a format spec may
      spell out. */
  const MaxSize := 0x7FFF_FFFF_FFFF_FFFF

  /** The `ValueError`s that `f"{s:<{width}}"` raises. The format spec
      parser first reads the width's digits and refuses more than `MaxSize`;
      only then does string formatting refuse the `-` it read as a sign. */
  datatype FormatError = SignNotAllowed | TooManyDigits

  /** Where Python's slice `value[:stop]` ends: a negative `stop` counts
      from the end, and the result is clamped to the string. */
  function SliceStop(length: nat, stop: int): (end: nat)
    ensures end <= length
    ensures 0 <= stop <= length ==> end == stop
    ensures stop < 0 ==> end == if length + stop < 0 then 0 else length + stop
    ensures stop > length ==> end == length
  {
    if stop < 0 then (if length + stop < 0 then 0 else length + stop)
    else if stop < length then stop
    else length
  }

  /** `value[:width - 3].strip()`: what remains of the value before any
      ellipsis is added. Whatever the width, including the negative slice
      bounds of widths below 3, it is the beginning of the stripped value. */
  function Kept(value: string, width: int): (kept: string)
    ensures width >= |Ellipsis| ==> |kept| <= width - |Ellipsis|
    ensures kept <= Strip(value)
  {
    var end := SliceStop(|value|, width - |Ellipsis|);
    assert value[..end] <= value;
    StripOfPrefix(value[..end], value);
    Strip(value[..end])
  }

  /** The stripped value lost characters to the cut, so `...` is added:
      exactly when the kept text is a proper prefix of the stripped value. */
  function IsCut(value: string, width: int): (cut: bool)
    ensures cut <==> Kept(value, width) != Strip(value)
  {
    |Kept(value, width)| < |Strip(value)|
  }

  /** `truncate_str(value, width)`. The kept text comes first, then the
      ellipsis when there was a cut; a negative width, or one whose digits
      spell a number above `MaxSize`, makes the final formatting raise. */
  function TruncateStr(value: string, width: int): (r: Result<string, FormatError>)
    ensures r.Failure? <==> width < 0 || width > MaxSize
    ensures r == Failure(SignNotAllowed) <==> -MaxSize <= width < 0
    ensures r == Failure(TooManyDigits) <==> width < -MaxSize || width > MaxSize
    ensures r.Success? ==> Kept(value, width) <= r.value && |r.value| >= width
    ensures r.Success? && IsCut(value, width) ==>
              |r.value| >= |Kept(value, width)| + 3
              && r.value[|Kept(value, width)|..|Kept(value, width)| + 3] == Ellipsis
  {
    if width < -MaxSize || width > MaxSize then Failure(TooManyDigits)
    else if width < 0 then Failure(SignNotAllowed)
    else
      var kept := Kept(value, width);
      var cut := IsCut(value, width);
      TextShape(kept, cut, width);
      Success(LeftJustify(if cut then kept + Ellipsis else kept, width))
  }

  /** The padded text starts with the kept text, followed by the ellipsis
      when there was a cut. */
  lemma TextShape(kept: string, cut: bool, width: int)
    ensures var r := LeftJustify(if cut then kept + Ellipsis else kept, width);
            && kept <= r
            && |r| >= width
            && (cut ==> |r| >= |kept| + 3 && r[|kept|..|kept| + 3] == Ellipsis)
  {
    var text := if cut then kept + Ellipsis else kept;
    var r := LeftJustify(text, width);
    assert r[..|text|] == text;
    assert cut ==> r[|kept|..|kept| + 3] == text[|kept|..] == Ellipsis;
  }

  /** With a width of at least 3 the result is a column of exactly that
      width: the kept text, `...` exactly when there was a cut, then spaces.
      A stripped value longer than `width - 3` is always cut. */
  lemma TruncateToWidth(value: string, width: int)
    requires |Ellipsis| <= width <= MaxSize
    ensures TruncateStr(value, width).Success?
    ensures var r := TruncateStr(value, width).value;
            var kept := Kept(value, width);
            && |r| == width
            && (IsCut(value, width) <==> r[|kept|..|kept| + 3] == Ellipsis)
            && (|Strip(value)| > width - |Ellipsis| ==> IsCut(value, width))
            && forall i :: |kept| + (if IsCut(value, width) then 3 else 0) <= i < width ==> r[i] == ' '
  {
    ColumnShape(Kept(value, width), IsCut(value, width), width);
  }

  /** At the default width every value fills a column of exactly 90
      characters. */
  lemma DefaultColumn(value: string)
    ensures TruncateStr(value, DefaultWidth).Success?
    ensures |TruncateStr(value, DefaultWidth).value| == DefaultWidth
  {
    TruncateToWidth(value, DefaultWidth);
  }

  /** The column laid out from the kept text: the text, the ellipsis if
      there was a cut, then spaces up to `width`. */
  lemma ColumnShape(kept: string, cut: bool, width: int)
    requires |kept| <= width - |Ellipsis|
    ensures var r := LeftJustify(if cut then kept + Ellipsis else kept, width);
            && |r| == width
            && kept <= r
            && (cut <==> r[|kept|..|kept| + 3] == Ellipsis)
            && forall i :: |kept| + (if cut then 3 else 0) <= i < width ==> r[i] == ' '
  {
    var text := if cut then kept + Ellipsis else kept;
    var r := LeftJustify(text, width);
    assert r[..|text|] == text;
    assert cut ==> r[|kept|..|kept| + 3] == text[|kept|..] == Ellipsis;
    assert !cut ==> r[|kept|..|kept| + 3][0] == ' ' != Ellipsis[0];
  }

  /** A value that fits in `width - 3` characters is only stripped and
      padded: no ellipsis. */
  lemma ShortValue(value: string, width: int)
    requires |Ellipsis| <= width <= MaxSize
    requires |value| <= width - |Ellipsis|
    ensures TruncateStr(value, width) == Success(Strip(value) + Spaces(width - |Strip(value)|))
  {
    var s := Strip(value);
    assert SliceStop(|value|, width - |Ellipsis|) == |value|;
    assert value[..|value|] == value;
    assert Kept(value, width) == s;
    assert !IsCut(value, width);
    assert TruncateStr(value, width) == Success(LeftJustify(s, width));
    PadShort(s, width);
  }

  /** Padding a string shorter than `width` appends exactly the missing
      spaces. */
  lemma PadShort(s: string, width: int)
    requires |s| <= width
    ensures LeftJustify(s, width) == s + Spaces(width - |s|)
  {
    if |s| == width {
      assert s + Spaces(0) == s;
    }
  }
}

=== FILE: wrappers.dfy ===
/** Optional values and results with an error, used where the Python code
    returns `None` or raises an exception. */
module Wrappers {

  /** `None` or a value, as Python's `Optional[T]`. */
  datatype Option<+T> = None | Some(value: T)

  /** A value, or the error an exception would carry. */
  datatype Result<+R, +E> = Success(value: R) | Failure(error: E)
}
